=== FILE: README.md ===
# Bytebeat and terminal-graphics demo: the integer drawing core

The demo exists in two variants. `other.c` has a `_start` entry point. `main.c` has a `main` entry point. Each variant runs one loop over a position counter. On every tick it does two things:

- It fills an 8172-sample audio block from a bytebeat formula and writes it to ALSA. The blocking write is the program's clock.
- It draws a frame of pixel art with ANSI escape sequences.

This project models everything in that loop that is integer arithmetic:

- Clipping and byte encoding of a pixel: the cursor move, the colour code and the shade glyph.
- The composite shapes: the rectangle and the smooth circle.
- The per-frame scene parameters: the chessboard tile, and the three smooth circles of `draw_circles` and `update_graphics`.
- The loop schedule: how many ticks there are, and the order of audio and graphics within a tick.
- The sample-index arithmetic behind each audio block, including the slots where the bytebeat divisor is zero.

Output is modelled at two levels:

- A pixel write is a byte sequence. The module `Ansi` renders it with the `printf` formats both files use, and decodes it again. The decoders are the partner the pixel encoders are proved against.
- A composite shape is a trace of the drawing calls it makes, in call order. `draw_circle` stays an opaque event: `OtherRender.EllipseCall` for other.c and `MainRender.CircleCall` for main.c. Its pixel positions come from `cos`, `sin` and `roundf`.

The two variants are kept apart, as the code keeps them apart:

- `OtherRender` and `OtherDemo` model other.c. Clipping is `0 <= x <= 80` and `0 <= y <= 25`. The cursor is `(y+1, x+1)`. Radii are elliptical.
- `MainRender` and `MainDemo` model main.c. Clipping is `1 <= x <= 80` and `1 <= y <= 25`. The cursor is `(y, x)`. Each circle has a single radius.
- `Variants` relates the two clipping rules and the two cursor offsets.
- `Arith` holds the C arithmetic. `>>` is division by a power of two. `|` and `&` are digit-wise on naturals. Wrap-around is written out with `% 2^32` or `% 2^64` wherever an unsigned C type can wrap. Signed `int` drawing parameters are mathematical integers; see "Left out".

Facts of the code the model keeps:

- main.c clips with `x > 0 && y > 0`, so column and row 0 are dropped. The inclusive lower bound belongs to other.c only.
- main.c draws graphics before writing sound on each tick. other.c does the opposite.
- other.c switches scenes on `(position / 128) % 2`. main.c has a single scene.
- The division by zero in the bytebeat formula is left as the code leaves it: undefined. The model records which slots have a zero divisor and gives them no sample value.

Two consequences of the code are proved, not corrected:

- In other.c, a visible pixel lands on terminal row 26 exactly when its canvas row is 25, and on column 81 exactly when its canvas column is 80 (`OtherRender.CursorRange`).
- The chessboard's bottom tile row loses its last two pixel rows to clipping (`OtherDemo.ChessboardClipping`).

## Model

| member | source | states |
|---|---|---|
| `Ansi.Decimal` | main.c:69 | The `%i` rendering is at least one byte of digits and minus signs. It starts with a minus sign exactly when the number is negative. |
| `Ansi.CursorPosition` | main.c:69 | The cursor escape starts with `ESC [` and ends with `H`, and no earlier byte is an `H`. So a pixel write can be split at its first `H`. |
| `Ansi.Foreground` | main.c:74 | The colour escape starts with `ESC [` and ends with `m`, and no earlier byte is an `m`. |
| `Ansi.ShadeByte` | main.c:83 | The `%c` byte is `0x91 + weight` modulo 256. For weights from -0x91 to 0x6E it is `0x91 + weight` itself. |
| `Ansi.Shade` | main.c:83 | The glyph is the bytes E2 96 followed by the `%c` byte, and it decodes back to `ShadeByte(weight)`. |
| `Ansi.DecimalRoundTrip` | other.c:81 | The `%i` rendering of any int, negative ones included, parses back to the same int. |
| `Ansi.CursorRoundTrip` | main.c:67-70 | The cursor escape `ESC[row;colH` decodes back to exactly its row and column. |
| `Ansi.ForegroundRoundTrip` | main.c:72-75 | The colour escape `ESC[codem` decodes back to exactly its code. |
| `Ansi.PixelRoundTrip` | main.c:81-83 | The three parts of a pixel write can be split apart again at their first `H` and first `m`. Decoding gives back the cursor row and column, the colour code, and the `%c` byte `(0x91+weight) mod 256`. |
| `Ansi.ShadeGlyphs` | other.c:95-96 | For weights 0, 1 and 2 the glyph is valid UTF-8 for U+2591, U+2592 and U+2593 (light, medium and dark shade). The glyph is one of those three shades exactly when `weight mod 256` is at most 2. |
| `Arith.Shr` | main.c:46 | `a >> n` is at most `a`, and it is zero exactly when `a` is below 2^n. |
| `Arith.Or` | main.c:113 | `a OR b` is at least `a` and at least `b`, and at most `a + b`: no carry. |
| `Arith.And` | main.c:46 | `a & b` is at most `a` and at most `b`. This is what keeps `46 * (t & (t >> 12))` from wrapping. |
| `Arith.OrBit` | main.c:113 | Bit k of `a OR b` is set exactly when bit k of `a` or bit k of `b` is set, for every k. This is C's bit-by-bit definition of the operator. |
| `Arith.AndBit` | main.c:46 | Bit k of `a & b` is set exactly when bit k of both `a` and `b` is set, for every k. This is C's bit-by-bit definition of the operator. |
| `Arith.Pow2Width` | main.c:45 | 2^32 is the power of two that bounds an `unsigned int`. |
| `Arith.OrBelow` | main.c:113 | The OR of two n-bit values is an n-bit value, so `(p >> i) OR p` cannot leave its unsigned width. |
| `OtherRender.GotoXY` | other.c:78-82 | The cursor escape for canvas point (x, y) decodes to terminal row y+1 and column x+1. |
| `OtherRender.SetColor` | other.c:84-87 | The colour escape decodes to the code 30 + color. |
| `OtherRender.DrawPixel` | other.c:89-98 | Bytes are written exactly when `0 <= x <= 80` and `0 <= y <= 25`, both bounds inclusive. What is written decodes to the cell at row y+1 and column x+1, code 30+color, and shade byte 0x91+weight. |
| `OtherRender.CursorRange` | other.c:89-98 | Every visible pixel lands on rows 1..26 and columns 1..81, one row and one column past an 80x25 screen. Row 26 is reached exactly from canvas row 25, and column 81 exactly from canvas column 80. |
| `OtherRender.DrawSmoothCircle` | other.c:113-119 | Exactly five ellipse calls, in loop order. Call k has the same centre and colour, radii `rx+k-2` and `ry+k-2`, and weight `abs(k-2)`. |
| `OtherRender.SmoothCircleShape` | other.c:113-119 | The radius offsets are -2,-1,0,1,2 on both axes and the weights are 2,1,0,1,2. |
| `OtherRender.DrawRectangle` | other.c:121-130 | `width*height` pixel calls, column by column, each with the given colour and weight 2. There are no calls when either side is zero or negative. |
| `OtherRender.RectangleCovers` | other.c:121-130 | Some call hits the point (a, b) exactly when `x <= a < x+width` and `y <= b < y+height`. |
| `OtherRender.RectangleExample` | other.c:121-130 | `draw_rectangle(10,10,8,4,3)` makes 32 calls of colour 3 and weight 2, inside columns 10..17 and rows 10..13. |
| `OtherDemo.SampleIndexExact` | other.c:50-54 | The `size_t` index `position*8172+i` never wraps for any `unsigned short` position. |
| `OtherDemo.SampleIndex` | other.c:54 | The `size_t` index is below 2^64. For every slot of an `unsigned short` position it equals `position*8172+i`, with no wrap. |
| `OtherDemo.Divisor` | other.c:55 | For every `size_t` index, the `size_t` product `46 * (t & (t >> 12))` equals the unreduced product: it never wraps. |
| `OtherDemo.DivisorExact` | other.c:55 | A slot divides by zero exactly when `t & (t >> 12)` is zero. |
| `OtherDemo.FillSoundBuffer` | other.c:50-57 | The block has 8172 slots. Slot i has index `position*8172+i`. Its divisor is zero exactly when that index's bit mix is zero. |
| `OtherDemo.SampleStreamContiguous` | other.c:52-54 | Adjacent slots have adjacent indices, and so do the last slot of one tick and the first slot of the next. |
| `OtherDemo.DegenerateStart` | other.c:55 | In position 0, all of the first 4096 slots divide by zero. Of the remaining slots, exactly the even ones do. |
| `OtherDemo.ChessboardTile` | other.c:135-145 | The tile's x is a multiple of 8 in 0..72, and the 8-wide tile fits inside width 80. Its y is a multiple of 4 in 0..24. Its colour is in 0..7. |
| `OtherDemo.ChessboardClipping` | other.c:135-145 | The chessboard makes 32 pixel calls, all inside the canvas horizontally. A call is clipped exactly when its row is beyond 25. That happens exactly when `position % 7 == 6`. |
| `OtherDemo.RadiusY` | other.c:152 | The truncated `radius_x * 0.75` lies in 0..14 and is the floor of three quarters of `radius_x`. |
| `OtherDemo.CircleParams` | other.c:147-159 | For each of the three iterations: `radius_x` is in 0..19 and `radius_y` is the truncated three quarters of it. Both divisors are at least 1. x is in 0..79, y in 0..24 and the colour in 0..7. |
| `OtherDemo.SmoothCirclesElements` | other.c:147-159 | Once the parameters of the loop are known, call `5*i+m` of the loop is ring m of the smooth circle of iteration i. |
| `OtherDemo.DrawCirclesShape` | other.c:147-159 | The 15 ellipse calls of `draw_circles` are the three smooth circles of iterations 0, 1 and 2, in that order. |
| `OtherDemo.CirclesBounds` | other.c:147-159 | Every ellipse of the frame is centred on the canvas, has a palette colour and a weight of at most 2, and has radii within 2 of the bounds above. |
| `OtherDemo.TicksFromElements` | other.c:167-178 | In every iteration, the audio block of a position is written and then the scene of the same position is drawn. |
| `OtherDemo.DrawChessboard` | other.c:135-145 | 32 pixel calls, all inside the 8x4 tile placed by `ChessboardTile`, each with the tile's colour and weight 2. |
| `OtherDemo.DrawCircles` | other.c:147-159 | A circles frame is exactly 15 ellipse calls. Their arrangement is stated by `OtherDemo.DrawCirclesShape`. |
| `OtherDemo.SceneAt` | other.c:170 | The chessboard is chosen exactly when `position mod 256` is below 128, so the scenes alternate every 128 positions. |
| `OtherDemo.Run` | other.c:167-178 | The run is 1024 steps: 512 ticks of two steps each. |
| `OtherDemo.RunFrames` | other.c:167-178 | Step 2p+1 is a drawing step. Its scene renders to the chessboard calls of p for p in 0..127 and 256..383, and to the circle calls of p otherwise. |
| `OtherDemo.RunSchedule` | other.c:167-178 | The run has 512 ticks. Step 2p writes the audio of p and step 2p+1 draws p. The chessboard is drawn exactly for p in 0..127 and 256..383, and the circles for the rest. |
| `MainRender.GotoXY` | main.c:67-70 | The cursor escape for (x, y) decodes to terminal row y and column x, with no offset. |
| `MainRender.SetColor` | main.c:72-75 | The colour escape decodes to the code 30 + color. |
| `MainRender.DrawPixel` | main.c:77-86 | Bytes are written exactly when `1 <= x <= 80` and `1 <= y <= 25`, so the lower bound is strict. What is written decodes to row y, column x, code 30+color and shade byte 0x91+weight. |
| `MainRender.CursorRange` | main.c:77-86 | Visible pixels land on the 80x25 screen, and every cell of the screen can be reached. |
| `MainRender.DrawSmoothCircle` | main.c:101-107 | Exactly five circle calls, in loop order. Call k has the same centre and colour, the single radius `radius+k-2`, and weight `abs(k-2)`. |
| `MainRender.SmoothCircleShape` | main.c:101-107 | The radius offsets are -2,-1,0,1,2 and the weights are 2,1,0,1,2. |
| `MainDemo.SampleIndexNoWrap` | main.c:45 | Over the loop's positions 0..1023, the 32-bit index equals `position*8172+i` and is at most 8,368,127. |
| `MainDemo.SampleIndex` | main.c:45 | The `unsigned int` index is congruent to `position*8172+i` modulo 2^32, and equals it whenever that value is below 2^32. |
| `MainDemo.SampleIndexWraps` | main.c:45 | Every block up to position 525570 is computed exactly. In block 525571 the index has wrapped: its last slot is 2^32 below `position*8172+i`. |
| `MainDemo.Divisor` | main.c:46 | The `unsigned int` product `46 * (t & (t >> 12))` equals the unreduced product for every index: it never wraps. |
| `MainDemo.DivisorExact` | main.c:46 | `46 * (t & (t >> 12))` never wraps in `unsigned int`, so it is zero exactly when `t & (t >> 12)` is zero. |
| `MainDemo.FillSoundBuffer` | main.c:41-48 | The block has 8172 slots. Slot i has index `(position*8172+i) mod 2^32`. Its divisor is zero exactly when that index's bit mix is zero. |
| `MainDemo.SampleStreamContiguous` | main.c:43-45 | Inside the loop, adjacent slots have adjacent indices, and so do the last slot of one tick and the first slot of the next. |
| `MainDemo.DegenerateStart` | main.c:46 | Every t below 4096 (the first 4096 samples of position 0) divides by zero. In the rest of position 0, exactly the even indices do. |
| `MainDemo.RadiusOperandFits` | main.c:113 | `(position >> i) OR position` stays below 2^32, so computing it in `unsigned int` needs no reduction. |
| `MainDemo.CircleParams` | main.c:111-116 | For each of the three iterations: the radius is in 0..19, so the divisor `radius+1` is at least 1. x is in 0..79, y in 0..24, and the colour `(p+i)/12%7+1` is in 1..7. |
| `MainDemo.UpdateGraphics` | main.c:109-120 | A frame is exactly 15 circle calls. Their arrangement is stated by `MainDemo.UpdateGraphicsShape`. |
| `MainDemo.SmoothCirclesElements` | main.c:109-120 | Once the parameters of the loop are known, call `5*i+m` of the loop is ring m of the smooth circle of iteration i. |
| `MainDemo.UpdateGraphicsShape` | main.c:109-120 | Circle j of the frame is ring `j % 5` of the smooth circle of iteration `j / 5`. |
| `MainDemo.UpdateGraphicsBounds` | main.c:109-120 | Every circle of the frame is centred on columns 0..79 and rows 0..24, has a colour in 1..7 and a weight of at most 2, and has a radius in -2..21. |
| `MainDemo.TicksFromElements` | main.c:127-131 | In every iteration, the frame of a position is drawn and then the audio block of the same position is written. |
| `MainDemo.Run` | main.c:127-131 | The run is 2048 steps: 1024 ticks of two steps each. |
| `MainDemo.RunSchedule` | main.c:127-131 | The run has 1024 ticks. Step 2p draws p and step 2p+1 writes the audio of p. This is graphics before sound, the opposite of other.c. |
| `Variants.ClipDifference` | main.c:79 | Every pixel main.c draws, other.c draws too. other.c draws more exactly at canvas column 0 or row 0 (other.c:91). |
| `Variants.CellOffset` | main.c:69 | Where both variants draw a pixel, other.c's glyph is one row lower and one column further right (other.c:81). Colour and shade are the same. |

## Left out

- ALSA setup, priming the device with silence, and the blocking `snd_pcm_writei`. These are device I/O and wall-clock pacing. The loops model only the order in which each tick writes audio and draws.
- The sample value `sinf(...) * CHAR_MAX` and its conversion to `char`. This is floating point, and undefined behaviour when the divisor is zero. A slot keeps only its index and its divisor.
- The pixels of `draw_circle`. They come from `cos`, `sin` and `roundf` over angle steps of 0.05. Each call is one opaque event.
- Stream output itself, the clear-screen escape, `exit`, and process entry through `_start` versus `main`. A pixel write is the byte sequence it would print. other.c prints to stderr and main.c to stdout, and the model does not tell them apart.
- OtherRender.DrawPixel, MainRender.DrawPixel: `color`, `weight`, `x` and `y` are mathematical integers. C computes `30 + color` in signed `int`, and going past INT_MAX there is undefined behaviour, which is not modelled. Every caller in the demo passes values below 100.
- Ansi.ShadeByte, Ansi.ShadeGlyphs: `0x91 + weight` is taken as a mathematical sum before the `%c` truncation. The signed overflow near INT_MAX is not modelled; the demo's weights are 0..2.
- OtherRender.DrawRectangle: `x + x2` and `y + y2` are mathematical sums. Their signed overflow near INT_MAX is not modelled; the chessboard passes coordinates below 100.
- OtherRender.DrawSmoothCircle, MainRender.DrawSmoothCircle: `radius + i` is a mathematical sum. Its signed overflow near INT_MAX is not modelled; the demo's radii are 0..19.
- OtherDemo.RadiusY: models `(int)(radius_x * 0.75f)` only for `radius_x` in 0..19, where the float product is exact. Those are the only values `draw_circles` passes.
- OtherDemo.SampleStreamContiguous: speaks about ticks whose next position still fits an `unsigned short`. The loop stops at 511, so this covers the whole run.

=== FILE: ansi.dfy ===
/** The bytes a pixel write puts on the terminal stream.

    Both variants of the demo draw a pixel with the same three `printf`
    formats: a cursor move `ESC [ row ; col H`, a foreground colour
    `ESC [ code m` (numbers rendered with `%i`), and a three-byte UTF-8
    shade glyph whose last byte is produced with `%c`. This module renders
    those formats to bytes and, as their partner, decodes them again; the
    round-trip lemmas show the encoding loses nothing.
 */
module Ansi {

  newtype byte = b: int | 0 <= b < 256

  datatype Option<T> = None | Some(value: T)

  const Esc: byte := 0x1B
  const Bracket: byte := 0x5B      // '['
  const Semicolon: byte := 0x3B    // ';'
  const Minus: byte := 0x2D        // '-'
  const ZeroDigit: byte := 0x30    // '0'
  const CursorFinal: byte := 0x48  // 'H'
  const ColorFinal: byte := 0x6D   // 'm'

  /** Lead and middle byte of the UTF-8 encoding of U+2580..U+25BF (block elements). */
  const GlyphLead: byte := 0xE2
  const GlyphMiddle: byte := 0x96
  /** Last byte of U+2591 LIGHT SHADE; weights 1 and 2 follow it. */
  const GlyphBase: int := 0x91

  predicate IsDigit(b: byte) {
    ZeroDigit <= b <= 0x39
  }

  predicate AllDigits(s: seq<byte>) {
    forall k :: 0 <= k < |s| ==> IsDigit(s[k])
  }

  /** Bytes that can occur in a `%i` rendering. */
  predicate Numeric(s: seq<byte>) {
    forall k :: 0 <= k < |s| ==> IsDigit(s[k]) || s[k] == Minus
  }

  /** Decimal digits of n, most significant first, without leading zeros. */
  function Digits(n: nat): (r: seq<byte>)
    ensures 1 <= |r| && AllDigits(r)
    ensures |r| > 1 ==> r[0] != ZeroDigit
  {
    if n < 10 then [(ZeroDigit as int + n) as byte]
    else Digits(n / 10) + [(ZeroDigit as int + n % 10) as byte]
  }

  /** The number a string of decimal digits denotes. */
  function DigitsValue(s: seq<byte>): nat
    requires AllDigits(s)
  {
    if |s| == 0 then 0
    else DigitsValue(s[..|s| - 1]) * 10 + (s[|s| - 1] - ZeroDigit) as int
  }

  lemma {:induction false} DigitsRoundTrip(n: nat)
    ensures DigitsValue(Digits(n)) == n
  {
    if n >= 10 {
      DigitsRoundTrip(n / 10);
      var d := Digits(n);
      assert d[..|d| - 1] == Digits(n / 10);
    }
  }

  /** `printf("%i", n)`. */
  function Decimal(n: int): (r: seq<byte>)
    ensures 1 <= |r| && Numeric(r)
    ensures r[0] == Minus <==> n < 0
  {
    if n < 0 then [Minus] + Digits(-n) else Digits(n)
  }

  /** Reads an optionally signed decimal number that spans the whole of s. */
  function ParseDecimal(s: seq<byte>): Option<int>
  {
    if 2 <= |s| && s[0] == Minus && AllDigits(s[1..]) then Some(0 - DigitsValue(s[1..]))
    else if 1 <= |s| && AllDigits(s) then Some(DigitsValue(s))
    else None
  }

  lemma DecimalRoundTrip(n: int)
    ensures ParseDecimal(Decimal(n)) == Some(n)
  {
    DigitsRoundTrip(if n < 0 then -n else n);
    if n < 0 {
      assert Decimal(n)[1..] == Digits(-n);
    }
  }

  /** Position of the first b in s, or |s| when there is none. */
  function IndexOf(s: seq<byte>, b: byte): (k: nat)
    ensures k <= |s|
    ensures k < |s| ==> s[k] == b
    ensures forall j :: 0 <= j < k ==> s[j] != b
  {
    if |s| == 0 then 0
    else if s[0] == b then 0
    else 1 + IndexOf(s[1..], b)
  }

  lemma IndexOfFirst(s: seq<byte>, b: byte, k: nat)
    requires k < |s| && s[k] == b
    requires forall j :: 0 <= j < k ==> s[j] != b
    ensures IndexOf(s, b) == k
  {
  }

  /** `printf("\033[%i;%iH", row, col)`: move the cursor, 1-based. */
  function CursorPosition(row: int, col: int): (r: seq<byte>)
    ensures |r| >= 6 && r[0] == Esc && r[1] == Bracket
    ensures r[|r| - 1] == CursorFinal
    ensures forall k :: 0 <= k < |r| - 1 ==> r[k] != CursorFinal
  {
    [Esc, Bracket] + Decimal(row) + [Semicolon] + Decimal(col) + [CursorFinal]
  }

  /** `printf("\033[%im", code)`: select a foreground colour. */
  function Foreground(code: int): (r: seq<byte>)
    ensures |r| >= 4 && r[0] == Esc && r[1] == Bracket
    ensures r[|r| - 1] == ColorFinal
    ensures forall k :: 0 <= k < |r| - 1 ==> r[k] != ColorFinal
  {
    [Esc, Bracket] + Decimal(code) + [ColorFinal]
  }

  /** The byte `%c` prints for the int `0x91 + weight`: the argument's low byte. */
  function ShadeByte(weight: int): (b: byte)
    ensures (GlyphBase + weight - b as int) % 256 == 0
    ensures -GlyphBase <= weight < 256 - GlyphBase ==> b as int == GlyphBase + weight
  {
    ((GlyphBase + weight) % 256) as byte
  }

  /** `printf("\xe2\x96%c", 0x91 + weight)`: the shade glyph of one pixel. */
  function Shade(weight: int): (r: seq<byte>)
    ensures |r| == 3 && r[0] == GlyphLead && r[1] == GlyphMiddle
    ensures DecodeShade(r) == Some(ShadeByte(weight))
  {
    [GlyphLead, GlyphMiddle, ShadeByte(weight)]
  }

  /** What one visible pixel write leaves on the terminal. */
  datatype Cell = Cell(row: int, col: int, colorCode: int, shade: byte)

  function DecodeCursor(s: seq<byte>): Option<(int, int)>
  {
    if |s| < 3 || s[0] != Esc || s[1] != Bracket || s[|s| - 1] != CursorFinal then None
    else
      var body := s[2..|s| - 1];
      var k := IndexOf(body, Semicolon);
      if k == |body| then None
      else
        match (ParseDecimal(body[..k]), ParseDecimal(body[k + 1..]))
        case (Some(row), Some(col)) => Some((row, col))
        case _ => None
  }

  function DecodeForeground(s: seq<byte>): Option<int>
  {
    if |s| < 3 || s[0] != Esc || s[1] != Bracket || s[|s| - 1] != ColorFinal then None
    else ParseDecimal(s[2..|s| - 1])
  }

  function DecodeShade(s: seq<byte>): Option<byte>
  {
    if |s| == 3 && s[0] == GlyphLead && s[1] == GlyphMiddle then Some(s[2]) else None
  }

  /** Splits a pixel write at its two escape terminators and decodes each part. */
  function DecodePixel(s: seq<byte>): Option<Cell>
  {
    var h := IndexOf(s, CursorFinal);
    if h == |s| then None
    else
      var rest := s[h + 1..];
      var m := IndexOf(rest, ColorFinal);
      if m == |rest| then None
      else
        match (DecodeCursor(s[..h + 1]), DecodeForeground(rest[..m + 1]), DecodeShade(rest[m + 1..]))
        case (Some(pos), Some(code), Some(b)) => Some(Cell(pos.0, pos.1, code, b))
        case _ => None
  }

  lemma CursorRoundTrip(row: int, col: int)
    ensures DecodeCursor(CursorPosition(row, col)) == Some((row, col))
  {
    var s := CursorPosition(row, col);
    var a, c := Decimal(row), Decimal(col);
    var body := s[2..|s| - 1];
    assert body == a + [Semicolon] + c;
    IndexOfFirst(body, Semicolon, |a|);
    assert body[..|a|] == a;
    assert body[|a| + 1..] == c;
    DecimalRoundTrip(row);
    DecimalRoundTrip(col);
  }

  lemma ForegroundRoundTrip(code: int)
    ensures DecodeForeground(Foreground(code)) == Some(code)
  {
    var s := Foreground(code);
    assert s[2..|s| - 1] == Decimal(code);
    DecimalRoundTrip(code);
  }

  /** The cursor move is the prefix of a pixel write up to its first 'H'. */
  lemma CursorPrefix(row: int, col: int, tail: seq<byte>)
    ensures IndexOf(CursorPosition(row, col) + tail, CursorFinal) == |CursorPosition(row, col)| - 1
  {
    var cur := CursorPosition(row, col);
    IndexOfFirst(cur + tail, CursorFinal, |cur| - 1);
  }

  /** The colour selection is the prefix of the rest up to its first 'm'. */
  lemma ForegroundPrefix(code: int, tail: seq<byte>)
    ensures IndexOf(Foreground(code) + tail, ColorFinal) == |Foreground(code)| - 1
  {
    var fg := Foreground(code);
    IndexOfFirst(fg + tail, ColorFinal, |fg| - 1);
  }

  /** Decoding a pixel write gives back its cursor, colour code and shade byte. */
  lemma PixelRoundTrip(row: int, col: int, code: int, weight: int)
    ensures DecodePixel(CursorPosition(row, col) + Foreground(code) + Shade(weight))
            == Some(Cell(row, col, code, ShadeByte(weight)))
  {
    var cur, fg, sh := CursorPosition(row, col), Foreground(code), Shade(weight);
    CursorPrefix(row, col, fg + sh);
    ForegroundPrefix(code, sh);
    CursorRoundTrip(row, col);
    ForegroundRoundTrip(code);
    assert cur + fg + sh == cur + (fg + sh);
    DecodeJoined(cur, fg, sh, (row, col), code, ShadeByte(weight));
  }

  /** A pixel write decodes part by part once each part decodes and ends at
      the first terminator of its kind. */
  lemma DecodeJoined(cur: seq<byte>, fg: seq<byte>, sh: seq<byte>, pos: (int, int), code: int, b: byte)
    requires |cur| >= 1 && |fg| >= 1
    requires IndexOf(cur + (fg + sh), CursorFinal) == |cur| - 1
    requires IndexOf(fg + sh, ColorFinal) == |fg| - 1
    requires DecodeCursor(cur) == Some(pos)
    requires DecodeForeground(fg) == Some(code)
    requires DecodeShade(sh) == Some(b)
    ensures DecodePixel(cur + fg + sh) == Some(Cell(pos.0, pos.1, code, b))
  {
    var s := cur + fg + sh;
    PixelSplit(cur, fg, sh);
    var h, m := |cur| - 1, |fg| - 1;
    assert s[..h + 1] == cur;
    assert s[h + 1..] == fg + sh;
    assert (fg + sh)[..m + 1] == fg;
    assert (fg + sh)[m + 1..] == sh;
  }

  lemma PixelSplit(cur: seq<byte>, fg: seq<byte>, sh: seq<byte>)
    requires |cur| >= 1 && |fg| >= 1
    ensures cur + fg + sh == cur + (fg + sh)
    ensures (cur + fg + sh)[..|cur|] == cur
    ensures (cur + fg + sh)[|cur|..] == fg + sh
    ensures (fg + sh)[..|fg|] == fg
    ensures (fg + sh)[|fg|..] == sh
  {
  }

  /** The Unicode scalar value of a three-byte UTF-8 sequence. */
  function Utf8Scalar3(s: seq<byte>): int
    requires |s| == 3
  {
    (s[0] as int - 0xE0) * 0x1000 + (s[1] as int - 0x80) * 0x40 + (s[2] as int - 0x80)
  }

  predicate IsUtf8Triple(s: seq<byte>) {
    |s| == 3 && 0xE0 <= s[0] <= 0xEF && 0x80 <= s[1] <= 0xBF && 0x80 <= s[2] <= 0xBF
  }

  /** Weights 0, 1 and 2 give valid UTF-8 for U+2591, U+2592, U+2593
      (LIGHT, MEDIUM and DARK SHADE); any other weight does not name a shade. */
  lemma ShadeGlyphs(weight: int)
    ensures 0 <= weight <= 2 ==> IsUtf8Triple(Shade(weight)) && Utf8Scalar3(Shade(weight)) == 0x2591 + weight
    ensures 0x2591 <= Utf8Scalar3(Shade(weight)) <= 0x2593 <==> weight % 256 <= 2
  {
  }
}

=== FILE: arith.dfy ===
/** Integer arithmetic as the demo's C code performs it.

    Every bitwise expression of the demo (`p >> i | p`, `t & (t >> 12)`)
    works on non-negative values that fit their C type, so C's operators
    agree with the mathematical operations defined here: `>>` is division
    by a power of two, and `|` / `&` combine the binary digits one by one.
    Where the C arithmetic can wrap, the callers reduce modulo the width
    explicitly (see `U32` and `U64`).
 */
module Arith {

  /** 2^32: one more than the largest `unsigned int`. */
  const U32: nat := 0x1_0000_0000

  /** 2^64: one more than the largest `size_t`. */
  const U64: nat := 0x1_0000_0000_0000_0000

  /** 2 to the power n. */
  function Pow2(n: nat): (r: nat)
    ensures r >= 1
  {
    if n == 0 then 1 else 2 * Pow2(n - 1)
  }

  /** 2^32 as a power of two: `unsigned int` holds exactly the 32-bit values. */
  lemma {:induction false} Pow2Width()
    ensures Pow2(32) == U32
  {
    assert Pow2(8) == 0x100;
    assert Pow2(16) == 0x1_0000;
    assert Pow2(24) == 0x100_0000;
  }

  /** `a >> n` on an unsigned (or non-negative) operand: never larger than a,
      and zero exactly when a has no bit at position n or above. */
  function Shr(a: nat, n: nat): (r: nat)
    ensures r <= a
    ensures r == 0 <==> a < Pow2(n)
  {
    var d := Pow2(n);
    QuotientNonNegative(a, d);
    a / d
  }

  lemma QuotientNonNegative(a: nat, d: nat)
    requires d >= 1
    ensures 0 <= a / d <= a
    ensures a / d == 0 <==> a < d
  {
    var q := a / d;
    assert a == q * d + a % d;
    if q < 0 {
      MulMonotone(1, -q, d);
    } else if q >= 1 {
      MulMonotone(1, d, q);
      MulMonotone(1, q, d);
    } else if a < d {
      DivModUnique(0, a, d, a);
    }
  }

  /** `a | b`, least significant bit first. It keeps every bit of both
      operands and adds no carry, so it lies between `max(a, b)` and `a + b`. */
  function Or(a: nat, b: nat): (r: nat)
    ensures a <= r && b <= r && r <= a + b
    decreases a + b
  {
    if a == 0 then b
    else if b == 0 then a
    else 2 * Or(a / 2, b / 2) + (if a % 2 == 1 || b % 2 == 1 then 1 else 0)
  }

  /** `a & b`, least significant bit first. It keeps only bits both operands
      have, so it never exceeds either operand. */
  function And(a: nat, b: nat): (r: nat)
    ensures r <= a && r <= b
    decreases a + b
  {
    if a == 0 || b == 0 then 0
    else 2 * And(a / 2, b / 2) + (if a % 2 == 1 && b % 2 == 1 then 1 else 0)
  }

  /** Bit k of a, least significant first: the reference the bitwise
      operators are specified against. */
  function Bit(a: nat, k: nat): bool
  {
    if k == 0 then a % 2 == 1 else Bit(a / 2, k - 1)
  }

  /** Zero has no bit set. */
  lemma {:induction false} ZeroBits(k: nat)
    ensures !Bit(0, k)
    decreases k
  {
    if k > 0 {
      ZeroBits(k - 1);
    }
  }

  /** Bit k of `a | b` is set exactly when bit k of a or of b is. */
  lemma {:induction false} OrBit(a: nat, b: nat, k: nat)
    ensures Bit(Or(a, b), k) == (Bit(a, k) || Bit(b, k))
    decreases k
  {
    if k > 0 && a != 0 && b != 0 {
      OrBit(a / 2, b / 2, k - 1);
    } else if k > 0 {
      ZeroBits(k - 1);
    }
  }

  /** Bit k of `a & b` is set exactly when bit k of both a and b is. */
  lemma {:induction false} AndBit(a: nat, b: nat, k: nat)
    ensures Bit(And(a, b), k) == (Bit(a, k) && Bit(b, k))
    decreases k
  {
    if k > 0 && a != 0 && b != 0 {
      AndBit(a / 2, b / 2, k - 1);
    } else if k > 0 {
      ZeroBits(k - 1);
    }
  }

  /** Masking with 1 keeps exactly the lowest bit. */
  lemma AndOne(a: nat)
    ensures And(a, 1) == a % 2
  {
    if a != 0 {
      assert And(a / 2, 0) == 0;
    }
  }

  /** OR of two n-bit values is an n-bit value: it cannot carry out of the width,
      which is why `|` on `unsigned int` operands needs no reduction modulo 2^32. */
  lemma {:induction false} OrBelow(a: nat, b: nat, n: nat)
    requires a < Pow2(n) && b < Pow2(n)
    ensures Or(a, b) < Pow2(n)
    decreases a + b
  {
    if a != 0 && b != 0 {
      assert n >= 1;
      OrBelow(a / 2, b / 2, n - 1);
    }
  }

  /** C's `abs`. */
  function Abs(i: int): nat {
    if i < 0 then -i else i
  }

  /** Euclidean division is determined by quotient and remainder. */
  lemma DivModUnique(q: int, rem: int, h: int, n: int)
    requires h > 0 && 0 <= rem < h && n == q * h + rem
    ensures n / h == q && n % h == rem
  {
    var d := q - n / h;
    assert d * h == n % h - rem;
    if d >= 1 {
      MulMonotone(1, d, h);
    } else if d <= -1 {
      MulMonotone(1, -d, h);
    }
  }

  lemma DivModShift(k: int, h: int)
    requires h > 0 && k >= h
    ensures (k - h) / h == k / h - 1 && (k - h) % h == k % h
  {
    DivModUnique(k / h - 1, k % h, h, k - h);
  }

  /** Dropping one block of h from the front lowers the quotient by one and keeps the remainder. */
  lemma DivModShiftAll(h: int)
    ensures h > 0 ==> forall k :: k >= h ==> (k - h) / h == k / h - 1 && (k - h) % h == k % h
  {
    if h > 0 {
      forall k | k >= h
        ensures (k - h) / h == k / h - 1 && (k - h) % h == k % h
      {
        DivModShift(k, h);
      }
    }
  }

  lemma MulMonotone(a: int, b: int, h: int)
    requires 0 <= a <= b && h >= 0
    ensures a * h <= b * h
  {
  }

  lemma QuotientBelow(k: int, width: int, height: int)
    requires 0 <= k < width * height && height > 0
    ensures k / height < width
  {
  }
}

=== FILE: main_demo.dfy ===
/** Sound indices, scene parameters and the main loop of the `main` variant (main.c).

    The position counter and the sample index are `unsigned int`; the
    model reduces modulo 2^32 wherever that arithmetic can wrap.
 */
module MainDemo {
  import opened Arith
  import opened MainRender

  /** Values of an `unsigned int`. */
  type UInt = p: nat | p < 0x1_0000_0000

  /** Samples per audio block, the length of the buffer in `update_sound`. */
  const BlockSize: nat := 8172

  /** Iterations of the `main` loop. */
  const Ticks: nat := 1024

  // ---------------------------------------------------------------------
  // Sound: which sample index each buffer slot gets, and when the
  // bytebeat divisor vanishes. The sine value itself is not modelled.
  // ---------------------------------------------------------------------

  /** `unsigned int t = position * size + i`: the `size_t` result truncated to 32 bits. */
  function SampleIndex(position: UInt, i: nat): (t: UInt)
    ensures (position * BlockSize + i - t) % U32 == 0
    ensures position * BlockSize + i < U32 ==> t == position * BlockSize + i
  {
    (position * BlockSize + i) % U32
  }

  /** Within the loop's 1024 positions the index never wraps: its largest value
      is 1023 * 8172 + 8171 = 8368127. */
  lemma SampleIndexNoWrap(position: UInt, i: nat)
    requires position < Ticks && i < BlockSize
    ensures SampleIndex(position, i) == position * BlockSize + i
    ensures SampleIndex(position, i) <= 8368127
  {
  }

  /** Every block up to position 525570 is computed exactly; in the next block
      the index wraps around, so its last slot comes out 2^32 too small. */
  lemma SampleIndexWraps(position: UInt, i: nat)
    requires i < BlockSize
    ensures position <= 525570 ==> SampleIndex(position, i) == position * BlockSize + i
    ensures position == 525571 && i == BlockSize - 1
            ==> SampleIndex(position, i) == position * BlockSize + i - U32
  {
    if position <= 525570 {
      MulMonotone(position, 525570, BlockSize);
    }
  }

  /** `46 * (t & (t >> 12))`, the divisor inside the bytebeat formula, in
      `unsigned int`. The product never wraps: `t & (t >> 12)` is below 2^20. */
  function Divisor(t: UInt): (d: nat)
    ensures d == 46 * And(t, Shr(t, 12))
  {
    assert Shr(t, 12) == t / 4096;
    (46 * And(t, Shr(t, 12))) % U32
  }

  /** A slot whose divisor is zero: the C code divides by zero there. */
  predicate Degenerate(t: UInt)
  {
    Divisor(t) == 0
  }

  /** The divisor never wraps, since `t & (t >> 12)` is below 2^20; so it is zero
      exactly when the bit mix is. */
  lemma DivisorExact(t: UInt)
    ensures Divisor(t) == 46 * And(t, Shr(t, 12))
    ensures Degenerate(t) <==> And(t, Shr(t, 12)) == 0
  {
  }

  /** One slot of an audio block: its sample index and the divisor applied to it. */
  datatype Sample = Sample(t: nat, divisor: nat)

  /** `fill_sound_buffer(position, buffer, 8172)`, keeping for each slot what
      the sample is computed from. */
  method FillSoundBuffer(position: UInt) returns (block: seq<Sample>)
    ensures |block| == BlockSize
    ensures forall i :: 0 <= i < BlockSize ==>
              block[i].t == (position * BlockSize + i) % U32
              && (block[i].divisor == 0 <==> And(block[i].t, Shr(block[i].t, 12)) == 0)
  {
    block := [];
    var i := 0;
    while i < BlockSize
      invariant 0 <= i <= BlockSize
      invariant |block| == i
      invariant forall j :: 0 <= j < i ==>
                  block[j].t == (position * BlockSize + j) % U32
                  && (block[j].divisor == 0 <==> And(block[j].t, Shr(block[j].t, 12)) == 0)
    {
      var t := SampleIndex(position, i);
      DivisorExact(t);
      block := block + [Sample(t, Divisor(t))];
      i := i + 1;
    }
  }

  /** Within the loop, consecutive slots and consecutive ticks carry consecutive
      sample indices: the run plays one unbroken stream of 1024 * 8172 samples. */
  lemma SampleStreamContiguous(position: UInt, i: nat)
    requires position < Ticks && i < BlockSize
    ensures i + 1 < BlockSize ==> SampleIndex(position, i + 1) == SampleIndex(position, i) + 1
    ensures i + 1 == BlockSize && position + 1 < Ticks
            ==> SampleIndex(position + 1, 0) == SampleIndex(position, i) + 1
  {
    SampleIndexNoWrap(position, i);
    if i + 1 < BlockSize {
      SampleIndexNoWrap(position, i + 1);
    }
    if i + 1 == BlockSize && position + 1 < Ticks {
      SampleIndexNoWrap(position + 1, 0);
    }
  }

  /** The first 4096 samples of the run (all in position 0) divide by zero,
      and in the rest of position 0 exactly the even indices do. */
  lemma DegenerateStart(i: nat)
    requires i < BlockSize
    ensures i < 4096 ==> Degenerate(SampleIndex(0, i))
    ensures 4096 <= i ==> (Degenerate(SampleIndex(0, i)) <==> i % 2 == 0)
  {
    SampleIndexNoWrap(0, i);
    DivisorExact(i);
    assert Pow2(12) == 4096;
    if 4096 <= i {
      DivModUnique(1, i - 4096, 4096, i);
      AndOne(i);
    } else {
      DivModUnique(0, i, 4096, i);
    }
  }

  // ---------------------------------------------------------------------
  // Graphics.
  // ---------------------------------------------------------------------

  /** The parameters of one smooth circle of `update_graphics`. */
  datatype Ring = Ring(x: int, y: int, radius: int, color: int)

  /** `(((position / (radius + 1)) >> i) | i) % modulus`: a centre coordinate. */
  function Centre(position: UInt, radius: nat, i: nat, modulus: nat): (v: int)
    requires modulus > 0
    ensures 0 <= v < modulus
  {
    Or(Shr(position / (radius + 1), i), i) % modulus
  }

  /** `position >> i | position` is computed in `unsigned int`; it needs no
      reduction modulo 2^32, since neither shift nor OR can leave 32 bits. */
  lemma RadiusOperandFits(position: UInt, i: nat)
    ensures Or(Shr(position, i), position) < U32
  {
    Pow2Width();
    OrBelow(Shr(position, i), position, 32);
  }

  /** Iteration i of the loop in `update_graphics(position)`; `position + i`
      is unsigned and wraps. */
  function CircleParams(position: UInt, i: nat): (c: Ring)
    requires i < 3
    ensures 0 <= c.radius <= 19
    ensures 0 <= c.x < TerminalWidth && 0 <= c.y < TerminalHeight
    ensures 1 <= c.color <= 7
  {
    RadiusOperandFits(position, i);
    var radius: nat := Or(Shr(position, i), position) % 20;
    Ring(Centre(position, radius, i, TerminalWidth), Centre(position, radius, i, TerminalHeight),
         radius, (position + i) % U32 / 12 % 7 + 1)
  }

  /** Ring m (0..4) of the smooth circle with parameters c. */
  function RingCall(c: Ring, m: int): CircleCall
  {
    CircleCall(c.x, c.y, c.radius + m - 2, c.color, Abs(m - 2))
  }

  /** The calls of the loop in `update_graphics` once its parameters are computed:
      one smooth circle per ring, in order. */
  function SmoothCircles(rings: seq<Ring>): (r: seq<CircleCall>)
    ensures |r| == 5 * |rings|
  {
    if rings == [] then []
    else
      var c := rings[0];
      DrawSmoothCircle(c.x, c.y, c.radius, c.color) + SmoothCircles(rings[1..])
  }

  /** Call `5 * i + m` of the smooth circles of `rings` is ring m of `rings[i]`. */
  lemma {:induction false} SmoothCirclesElements(rings: seq<Ring>, i: nat, m: nat)
    requires i < |rings| && m < 5
    ensures SmoothCircles(rings)[5 * i + m] == RingCall(rings[i], m)
    decreases i
  {
    var c := rings[0];
    var head := DrawSmoothCircle(c.x, c.y, c.radius, c.color);
    assert SmoothCircles(rings) == head + SmoothCircles(rings[1..]);
    if i > 0 {
      SmoothCirclesElements(rings[1..], i - 1, m);
    }
  }

  /** The parameters of the three iterations of the loop in `update_graphics(position)`. */
  function Rings(position: UInt): (r: seq<Ring>)
    ensures |r| == 3
  {
    seq(3, i requires 0 <= i < 3 => CircleParams(position, i))
  }

  /** `update_graphics(position)`: three smooth circles of five circles each. */
  function UpdateGraphics(position: UInt): (r: seq<CircleCall>)
    ensures |r| == 15
  {
    SmoothCircles(Rings(position))
  }

  /** A frame is the three smooth circles of iterations 0, 1, 2 in order:
      circle j is ring `j % 5` of the smooth circle of iteration `j / 5`. */
  lemma UpdateGraphicsShape(position: UInt, j: nat)
    requires j < 15
    ensures var c := CircleParams(position, j / 5);
            UpdateGraphics(position)[j]
            == CircleCall(c.x, c.y, c.radius + j % 5 - 2, c.color, Abs(j % 5 - 2))
  {
    var i, m := j / 5, j % 5;
    assert 5 * i + m == j && i < 3 && m < 5;
    SmoothCirclesElements(Rings(position), i, m);
    assert Rings(position)[i] == CircleParams(position, i);
  }

  /** Every circle of a frame is centred on the canvas (columns 0..79, rows
      0..24), has a colour 1..7 and a radius within two of a radius in 0..19. */
  lemma UpdateGraphicsBounds(position: UInt, j: nat)
    requires j < 15
    ensures var r := UpdateGraphics(position)[j];
              && 0 <= r.cx < TerminalWidth && 0 <= r.cy < TerminalHeight
              && 1 <= r.color <= 7 && 0 <= r.weight <= 2
              && -2 <= r.radius <= 21
  {
    var i, m := j / 5, j % 5;
    assert 5 * i + m == j && i < 3 && m < 5;
    SmoothCirclesElements(Rings(position), i, m);
    assert Rings(position)[i] == CircleParams(position, i);
  }

  // ---------------------------------------------------------------------
  // The `main` loop.
  // ---------------------------------------------------------------------

  /** One step of the loop: a frame drawn, or an audio block written. */
  datatype Step = Graphics(position: nat) | Sound(position: nat)

  /** Iterations `from..1023` of the `main` loop. */
  function TicksFrom(from: nat): (r: seq<Step>)
    requires from <= Ticks
    ensures |r| == 2 * (Ticks - from)
    decreases Ticks - from
  {
    if from == Ticks then []
    else [Graphics(from), Sound(from)] + TicksFrom(from + 1)
  }

  /** Each iteration draws the frame of its position and then writes the audio
      block of the same position: iteration `from + i` occupies steps 2i and 2i+1. */
  lemma {:induction false} TicksFromElements(from: nat, i: nat)
    requires from + i < Ticks
    ensures TicksFrom(from)[2 * i] == Graphics(from + i)
    ensures TicksFrom(from)[2 * i + 1] == Sound(from + i)
    decreases i
  {
    if i > 0 {
      TicksFromElements(from + 1, i - 1);
    }
  }

  /** The whole run of `main`: 1024 ticks of two steps each. */
  function Run(): (r: seq<Step>)
    ensures |r| == 2 * Ticks
  {
    TicksFrom(0)
  }

  /** The run is 1024 ticks, and tick p draws frame p before writing the audio
      of p: graphics lead sound by one step throughout. */
  lemma RunSchedule(p: nat)
    requires p < Ticks
    ensures |Run()| == 2 * Ticks
    ensures Run()[2 * p] == Graphics(p)
    ensures Run()[2 * p + 1] == Sound(p)
  {
    TicksFromElements(0, p);
  }
}

=== FILE: main_render.dfy ===
/** Pixel and ring drawing of the `main` variant (main.c).

    This variant clips to `1 <= x <= 80` and `1 <= y <= 25` and hands the
    coordinates to the terminal unchanged, so canvas and cursor are both
    1-based. Its circles have a single radius for both axes.
 */
module MainRender {
  import opened Ansi
  import opened Arith

  const TerminalWidth: int := 80
  const TerminalHeight: int := 25

  /** One `draw_circle(x, y, radius, color, weight)` call. Its pixels come from
      floating-point trigonometry and are not modelled. */
  datatype CircleCall = CircleCall(cx: int, cy: int, radius: int, color: int, weight: int)

  /** `goto_xy`: the coordinates go to the cursor escape as they are. */
  function GotoXY(x: int, y: int): (r: seq<byte>)
    ensures DecodeCursor(r) == Some((y, x))
  {
    CursorRoundTrip(y, x);
    CursorPosition(y, x)
  }

  /** `set_color`: the ANSI foreground code is 30 plus the palette index. */
  function SetColor(color: int): (r: seq<byte>)
    ensures DecodeForeground(r) == Some(30 + color)
  {
    ForegroundRoundTrip(30 + color);
    Foreground(30 + color)
  }

  /** `draw_pixel`: the bytes written for one pixel, none when it is clipped. */
  function DrawPixel(x: int, y: int, color: int, weight: int): (r: seq<byte>)
    ensures r != [] <==> 1 <= x <= TerminalWidth && 1 <= y <= TerminalHeight
    ensures r != [] ==> DecodePixel(r) == Some(Cell(y, x, 30 + color, ShadeByte(weight)))
  {
    if x > 0 && y > 0 && x <= TerminalWidth && y <= TerminalHeight then
      var bytes := GotoXY(x, y) + SetColor(color) + Shade(weight);
      assert GotoXY(x, y) == CursorPosition(y, x) && SetColor(color) == Foreground(30 + color);
      PixelRoundTrip(y, x, 30 + color, weight);
      assert |bytes| >= |Shade(weight)| == 3;
      bytes
    else
      []
  }

  /** A visible pixel always lands on the 80x25 screen, and every cell of the
      screen is reachable. */
  lemma CursorRange(x: int, y: int, color: int, weight: int)
    ensures DrawPixel(x, y, color, weight) != [] ==>
              var cell := DecodePixel(DrawPixel(x, y, color, weight)).value;
              1 <= cell.row <= TerminalHeight && 1 <= cell.col <= TerminalWidth
    ensures 1 <= y <= TerminalHeight && 1 <= x <= TerminalWidth ==>
              DecodePixel(DrawPixel(x, y, color, weight)) == Some(Cell(y, x, 30 + color, ShadeByte(weight)))
  {
  }

  /** The iterations `i = from..2` of the loop in `draw_smooth_circle`. */
  function SmoothRings(x: int, y: int, radius: int, color: int, from: int): (r: seq<CircleCall>)
    requires -2 <= from <= 3
    ensures |r| == 3 - from
    ensures forall k :: 0 <= k < |r| ==>
              r[k] == CircleCall(x, y, radius + from + k, color, Abs(from + k))
    decreases 3 - from
  {
    if from == 3 then []
    else [CircleCall(x, y, radius + from, color, Abs(from))] + SmoothRings(x, y, radius, color, from + 1)
  }

  /** `draw_smooth_circle`: five circles around the same centre. */
  function DrawSmoothCircle(x: int, y: int, radius: int, color: int): (r: seq<CircleCall>)
    ensures |r| == 5
    ensures forall k :: 0 <= k < 5 ==>
              r[k] == CircleCall(x, y, radius + k - 2, color, Abs(k - 2))
  {
    SmoothRings(x, y, radius, color, -2)
  }

  /** The radius offsets run -2..2, the weights 2,1,0,1,2, and centre and
      colour are those given. */
  lemma SmoothCircleShape(x: int, y: int, radius: int, color: int)
    ensures var r := DrawSmoothCircle(x, y, radius, color);
            && [r[0].radius - radius, r[1].radius - radius, r[2].radius - radius,
                r[3].radius - radius, r[4].radius - radius] == [-2, -1, 0, 1, 2]
            && [r[0].weight, r[1].weight, r[2].weight, r[3].weight, r[4].weight] == [2, 1, 0, 1, 2]
            && forall k :: 0 <= k < 5 ==> r[k].cx == x && r[k].cy == y && r[k].color == color
  {
  }
}

=== FILE: other_demo.dfy ===
/** Sound indices, scene parameters and the main loop of the `_start` variant (other.c).

    The position counter is an `unsigned short`; in the scene formulas it is
    promoted to `int`, where no value of it can make `>>`, `|`, `/` or `%`
    misbehave. The sample index is a `size_t`.
 */
module OtherDemo {
  import opened Arith
  import opened OtherRender

  /** Values of the `unsigned short` position counter. */
  type UShort = p: nat | p < 0x1_0000

  /** Samples per audio block, the length of the buffer in `update_sound`. */
  const BlockSize: nat := 8172

  /** Iterations of the `_start` loop. */
  const Ticks: nat := 512

  /** Size of one chessboard tile. */
  const TileWidth: nat := 8
  const TileHeight: nat := 4

  // ---------------------------------------------------------------------
  // Sound: which sample index each buffer slot gets, and when the
  // bytebeat divisor vanishes. The sine value itself is not modelled.
  // ---------------------------------------------------------------------

  /** `t = position * size + i`, computed in `size_t` (64 bits, wrapping). */
  function SampleIndex(position: UShort, i: nat): (t: nat)
    ensures t < U64
    ensures i < BlockSize ==> t == position * BlockSize + i
  {
    (position * BlockSize + i) % U64
  }

  /** No position an `unsigned short` can hold makes the `size_t` index wrap. */
  lemma SampleIndexExact(position: UShort, i: nat)
    requires i < BlockSize
    ensures SampleIndex(position, i) == position * BlockSize + i
    ensures SampleIndex(position, i) <= 0xFFFF * BlockSize + BlockSize - 1
  {
  }

  /** `46 * (t & (t >> 12))`, the divisor inside the bytebeat formula, in `size_t`.
      For every `size_t` index the product does not wrap: `t & (t >> 12)` is
      below 2^52. */
  function Divisor(t: nat): (d: nat)
    ensures t < U64 ==> d == 46 * And(t, Shr(t, 12))
  {
    assert Shr(t, 12) == t / 4096;
    (46 * And(t, Shr(t, 12))) % U64
  }

  /** A slot whose divisor is zero: the C code divides by zero there. */
  predicate Degenerate(t: nat)
  {
    Divisor(t) == 0
  }

  /** The divisor never wraps, so it is zero exactly when the bit mix is. */
  lemma DivisorExact(t: nat)
    requires t < U64
    ensures Divisor(t) == 46 * And(t, Shr(t, 12))
    ensures Degenerate(t) <==> And(t, Shr(t, 12)) == 0
  {
  }

  /** One slot of an audio block: its sample index and the divisor applied to it. */
  datatype Sample = Sample(t: nat, divisor: nat)

  /** `fill_sound_buffer(position, buffer, 8172)`, keeping for each slot what
      the sample is computed from. */
  method FillSoundBuffer(position: UShort) returns (block: seq<Sample>)
    ensures |block| == BlockSize
    ensures forall i :: 0 <= i < BlockSize ==>
              block[i].t == position * BlockSize + i
              && (block[i].divisor == 0 <==> And(block[i].t, Shr(block[i].t, 12)) == 0)
  {
    block := [];
    var i := 0;
    while i < BlockSize
      invariant 0 <= i <= BlockSize
      invariant |block| == i
      invariant forall j :: 0 <= j < i ==>
                  block[j].t == position * BlockSize + j
                  && (block[j].divisor == 0 <==> And(block[j].t, Shr(block[j].t, 12)) == 0)
    {
      var t := SampleIndex(position, i);
      SampleIndexExact(position, i);
      DivisorExact(t);
      block := block + [Sample(t, Divisor(t))];
      i := i + 1;
    }
  }

  /** Consecutive slots, and the last slot of one tick and the first of the
      next, carry consecutive sample indices: the run plays one unbroken stream. */
  lemma SampleStreamContiguous(position: UShort, i: nat)
    requires i < BlockSize
    ensures i + 1 < BlockSize ==> SampleIndex(position, i + 1) == SampleIndex(position, i) + 1
    ensures i + 1 == BlockSize && position + 1 < 0x1_0000
            ==> SampleIndex(position + 1, 0) == SampleIndex(position, i) + 1
  {
    SampleIndexExact(position, i);
    if i + 1 < BlockSize {
      SampleIndexExact(position, i + 1);
    }
    if i + 1 == BlockSize && position + 1 < 0x1_0000 {
      SampleIndexExact(position + 1, 0);
    }
  }

  /** The first 4096 samples of the run (all in position 0) divide by zero,
      and in the rest of position 0 exactly the even indices do. */
  lemma DegenerateStart(i: nat)
    requires i < BlockSize
    ensures i < 4096 ==> Degenerate(SampleIndex(0, i))
    ensures 4096 <= i ==> (Degenerate(SampleIndex(0, i)) <==> i % 2 == 0)
  {
    SampleIndexExact(0, i);
    DivisorExact(i);
    assert Pow2(12) == 4096;
    if 4096 <= i {
      DivModUnique(1, i - 4096, 4096, i);
      AndOne(i);
    } else {
      DivModUnique(0, i, 4096, i);
    }
  }

  // ---------------------------------------------------------------------
  // Scenes.
  // ---------------------------------------------------------------------

  /** Placement and colour of the tile of `draw_chessboard`. */
  datatype Tile = Tile(x: int, y: int, color: int)

  /** The tile parameters of `draw_chessboard(position)`. */
  function ChessboardTile(position: UShort): (c: Tile)
    ensures c.x % TileWidth == 0 && 0 <= c.x <= 72 && c.x + TileWidth <= TerminalWidth
    ensures c.y % TileHeight == 0 && 0 <= c.y <= 24
    ensures 0 <= c.color <= 7
  {
    Tile(position % (TerminalWidth / TileWidth) * TileWidth,
         position % (TerminalHeight / TileHeight + 1) * TileHeight,
         Or(Shr(position, 2), position) % 8)
  }

  /** `draw_chessboard(position)`: one filled 8x4 tile. */
  function DrawChessboard(position: UShort): (r: seq<PixelCall>)
    ensures |r| == TileWidth * TileHeight
    ensures var c := ChessboardTile(position);
            forall k :: 0 <= k < |r| ==>
              && c.x <= r[k].x < c.x + TileWidth && c.y <= r[k].y < c.y + TileHeight
              && r[k].color == c.color && r[k].weight == RectangleWeight
  {
    var c := ChessboardTile(position);
    DrawRectangle(c.x, c.y, TileWidth, TileHeight, c.color)
  }

  /** A chessboard frame is 32 pixel calls, all inside the canvas horizontally;
      a call is clipped exactly when it falls below row 25, which happens only
      for the bottom tile row (`position % 7 == 6`). */
  lemma ChessboardClipping(position: UShort)
    ensures var r := DrawChessboard(position);
            && |r| == TileWidth * TileHeight
            && (forall k :: 0 <= k < |r| ==> 0 <= r[k].x < TerminalWidth && 0 <= r[k].y)
            && (forall k :: 0 <= k < |r| ==>
                  (DrawPixel(r[k].x, r[k].y, r[k].color, r[k].weight) == [] <==> r[k].y > TerminalHeight))
            && ((exists k :: 0 <= k < |r| && r[k].y > TerminalHeight) <==> position % 7 == 6)
  {
    var c := ChessboardTile(position);
    var r := DrawChessboard(position);
    if position % 7 == 6 {
      assert r[3].y == c.y + 3 == 27;
    }
  }

  /** The parameters of one smooth circle of `draw_circles`. */
  datatype Ring = Ring(x: int, y: int, rx: int, ry: int, color: int)

  /** `(int)(radius_x * 0.75f)`: for 0..19 the float product is exact and the
      conversion truncates it. */
  function RadiusY(rx: int): (ry: int)
    requires 0 <= rx <= 19
    ensures 0 <= ry <= 14 && 4 * ry <= 3 * rx < 4 * ry + 4
  {
    (3 * rx) / 4
  }

  /** `(((position / (radius + 1)) >> i) | i) % modulus`: a centre coordinate. */
  function Centre(position: UShort, radius: nat, i: nat, modulus: nat): (v: int)
    requires modulus > 0
    ensures 0 <= v < modulus
  {
    Or(Shr(position / (radius + 1), i), i) % modulus
  }

  /** Iteration i of the loop in `draw_circles(position)`. */
  function CircleParams(position: UShort, i: nat): (c: Ring)
    requires i < 3
    ensures 0 <= c.rx <= 19 && 0 <= c.ry <= 14 && 4 * c.ry <= 3 * c.rx < 4 * c.ry + 4
    ensures 0 <= c.x < TerminalWidth && 0 <= c.y < TerminalHeight
    ensures 0 <= c.color <= 7
  {
    var rx: nat := Or(Shr(position, i), position) % 20;
    var ry: nat := RadiusY(rx);
    Ring(Centre(position, rx, i, TerminalWidth), Centre(position, ry, i, TerminalHeight),
         rx, ry, (position + i) / 12 % 8)
  }

  /** Ring m (0..4) of the smooth circle with parameters c. */
  function RingCall(c: Ring, m: int): EllipseCall
  {
    EllipseCall(c.x, c.y, c.rx + m - 2, c.ry + m - 2, c.color, Abs(m - 2))
  }

  /** The calls of the loop in `draw_circles` once its parameters are computed:
      one smooth circle per ring, in order. */
  function SmoothCircles(rings: seq<Ring>): (r: seq<EllipseCall>)
    ensures |r| == 5 * |rings|
  {
    if rings == [] then []
    else
      var c := rings[0];
      DrawSmoothCircle(c.x, c.y, c.rx, c.ry, c.color) + SmoothCircles(rings[1..])
  }

  /** Call `5 * i + m` of the smooth circles of `rings` is ring m of `rings[i]`. */
  lemma {:induction false} SmoothCirclesElements(rings: seq<Ring>, i: nat, m: nat)
    requires i < |rings| && m < 5
    ensures SmoothCircles(rings)[5 * i + m] == RingCall(rings[i], m)
    decreases i
  {
    var c := rings[0];
    var head := DrawSmoothCircle(c.x, c.y, c.rx, c.ry, c.color);
    assert SmoothCircles(rings) == head + SmoothCircles(rings[1..]);
    if i > 0 {
      SmoothCirclesElements(rings[1..], i - 1, m);
    }
  }

  /** The parameters of the three iterations of the loop in `draw_circles(position)`. */
  function Rings(position: UShort): (r: seq<Ring>)
    ensures |r| == 3
  {
    seq(3, i requires 0 <= i < 3 => CircleParams(position, i))
  }

  /** `draw_circles(position)`: three smooth circles of five ellipses each. */
  function DrawCircles(position: UShort): (r: seq<EllipseCall>)
    ensures |r| == 15
  {
    SmoothCircles(Rings(position))
  }

  /** A circles frame is the three smooth circles of iterations 0, 1, 2 in
      order: ellipse j is ring `j % 5` of the circle of iteration `j / 5`. */
  lemma DrawCirclesShape(position: UShort, j: nat)
    requires j < 15
    ensures var c := CircleParams(position, j / 5);
            DrawCircles(position)[j]
            == EllipseCall(c.x, c.y, c.rx + j % 5 - 2, c.ry + j % 5 - 2, c.color, Abs(j % 5 - 2))
  {
    var i, m := j / 5, j % 5;
    assert 5 * i + m == j && i < 3 && m < 5;
    SmoothCirclesElements(Rings(position), i, m);
    assert Rings(position)[i] == CircleParams(position, i);
  }

  /** Every ellipse of a circles frame is centred on the canvas, has a colour
      of the palette and radii within two of a radius in 0..19 (0..14 vertically). */
  lemma CirclesBounds(position: UShort, j: nat)
    requires j < 15
    ensures var r := DrawCircles(position)[j];
              && 0 <= r.cx < TerminalWidth && 0 <= r.cy < TerminalHeight
              && 0 <= r.color <= 7 && 0 <= r.weight <= 2
              && -2 <= r.rx <= 21 && -2 <= r.ry <= 16
  {
    var i, m := j / 5, j % 5;
    assert 5 * i + m == j && i < 3 && m < 5;
    SmoothCirclesElements(Rings(position), i, m);
    assert Rings(position)[i] == CircleParams(position, i);
  }

  // ---------------------------------------------------------------------
  // The `_start` loop.
  // ---------------------------------------------------------------------

  /** The two scenes of the `_start` loop. */
  datatype Scene = ChessboardScene | CirclesScene

  /** What one tick draws. */
  datatype Frame = Chessboard(pixels: seq<PixelCall>) | Circles(ellipses: seq<EllipseCall>)

  /** One step of the loop: an audio block written, or a scene drawn. */
  datatype Step = UpdateSound(position: nat) | Draw(position: nat, scene: Scene)

  /** The scene switch of the loop body: the scenes alternate every 128
      positions, so the chessboard is drawn in the first half of every 256. */
  function SceneAt(position: nat): (s: Scene)
    ensures s == ChessboardScene <==> position % 256 < 128
  {
    SceneHalf(position);
    if (position / 128) % 2 == 0 then ChessboardScene else CirclesScene
  }

  lemma SceneHalf(position: nat)
    ensures (position / 128) % 2 == 0 <==> position % 256 < 128
  {
    var q, m := position / 256, position % 256;
    if m < 128 {
      DivModUnique(2 * q, m, 128, position);
    } else {
      DivModUnique(2 * q + 1, m - 128, 128, position);
    }
  }

  /** The drawing calls a scene makes at a position. */
  function Render(scene: Scene, position: UShort): Frame
  {
    match scene
    case ChessboardScene => Chessboard(DrawChessboard(position))
    case CirclesScene => Circles(DrawCircles(position))
  }

  /** Iterations `from..511` of the `_start` loop. */
  function TicksFrom(from: nat): (r: seq<Step>)
    requires from <= Ticks
    ensures |r| == 2 * (Ticks - from)
    decreases Ticks - from
  {
    if from == Ticks then []
    else [UpdateSound(from), Draw(from, SceneAt(from))] + TicksFrom(from + 1)
  }

  /** Each iteration writes the audio block of its position and then draws the
      frame of the same position: iteration `from + i` occupies steps 2i and 2i+1. */
  lemma {:induction false} TicksFromElements(from: nat, i: nat)
    requires from + i < Ticks
    ensures TicksFrom(from)[2 * i] == UpdateSound(from + i)
    ensures TicksFrom(from)[2 * i + 1] == Draw(from + i, SceneAt(from + i))
    decreases i
  {
    var head := [UpdateSound(from), Draw(from, SceneAt(from))];
    assert TicksFrom(from) == head + TicksFrom(from + 1);
    if i > 0 {
      TicksFromElements(from + 1, i - 1);
    }
  }

  lemma ScenePhases(p: nat)
    requires p < Ticks
    ensures SceneAt(p) == ChessboardScene <==> p < 128 || 256 <= p < 384
  {
    DivModUnique(p / 128, p % 128, 128, p);
  }

  /** The whole run of `_start`: 512 ticks of two steps each. */
  function Run(): (r: seq<Step>)
    ensures |r| == 2 * Ticks
  {
    TicksFrom(0)
  }

  /** The run is 512 ticks; tick p writes the audio of p before drawing frame p,
      and frame p is the chessboard exactly for p in 0..127 and 256..383. */
  lemma RunSchedule(p: nat)
    requires p < Ticks
    ensures |Run()| == 2 * Ticks
    ensures Run()[2 * p] == UpdateSound(p)
    ensures Run()[2 * p + 1] == Draw(p, SceneAt(p))
    ensures SceneAt(p) == ChessboardScene <==> p < 128 || 256 <= p < 384
  {
    RunSteps(p);
    ScenePhases(p);
  }

  lemma RunSteps(p: nat)
    requires p < Ticks
    ensures |Run()| == 2 * Ticks
    ensures Run()[2 * p] == UpdateSound(p)
    ensures Run()[2 * p + 1] == Draw(p, SceneAt(p))
  {
    TicksFromElements(0, p);
  }

  /** What tick p draws: the chessboard tile of p for p in 0..127 and
      256..383, the three smooth circles of p otherwise. */
  lemma RunFrames(p: UShort)
    requires p < Ticks
    ensures Run()[2 * p + 1].Draw?
    ensures Render(Run()[2 * p + 1].scene, p)
            == if p < 128 || 256 <= p < 384 then Chessboard(DrawChessboard(p)) else Circles(DrawCircles(p))
  {
    RunSchedule(p);
  }
}

=== FILE: other_render.dfy ===
/** Pixel, ring and rectangle drawing of the `_start` variant (other.c).

    This variant clips to `0 <= x <= 80` and `0 <= y <= 25` (both bounds
    inclusive) and shifts 0-based canvas coordinates to the 1-based
    terminal cursor. Composite shapes are modelled as the sequence of
    drawing calls they make, in the order they make them.
 */
module OtherRender {
  import opened Ansi
  import opened Arith

  const TerminalWidth: int := 80
  const TerminalHeight: int := 25

  /** The weight `draw_rectangle` passes for every pixel: the darkest shade. */
  const RectangleWeight: int := 2

  /** One `draw_pixel(x, y, color, weight)` call. */
  datatype PixelCall = PixelCall(x: int, y: int, color: int, weight: int)

  /** One `draw_circle(x, y, radius_x, radius_y, color, weight)` call. Its pixels
      come from floating-point trigonometry and are not modelled. */
  datatype EllipseCall = EllipseCall(cx: int, cy: int, rx: int, ry: int, color: int, weight: int)

  /** `goto_xy`: the cursor escape for a 0-based canvas coordinate. */
  function GotoXY(x: int, y: int): (r: seq<byte>)
    ensures DecodeCursor(r) == Some((y + 1, x + 1))
  {
    CursorRoundTrip(y + 1, x + 1);
    CursorPosition(y + 1, x + 1)
  }

  /** `set_color`: the ANSI foreground code is 30 plus the palette index. */
  function SetColor(color: int): (r: seq<byte>)
    ensures DecodeForeground(r) == Some(30 + color)
  {
    ForegroundRoundTrip(30 + color);
    Foreground(30 + color)
  }

  /** `draw_pixel`: the bytes written for one pixel, none when it is clipped. */
  function DrawPixel(x: int, y: int, color: int, weight: int): (r: seq<byte>)
    ensures r != [] <==> 0 <= x <= TerminalWidth && 0 <= y <= TerminalHeight
    ensures r != [] ==> DecodePixel(r) == Some(Cell(y + 1, x + 1, 30 + color, ShadeByte(weight)))
  {
    if x >= 0 && y >= 0 && x <= TerminalWidth && y <= TerminalHeight then
      var bytes := GotoXY(x, y) + SetColor(color) + Shade(weight);
      assert GotoXY(x, y) == CursorPosition(y + 1, x + 1) && SetColor(color) == Foreground(30 + color);
      PixelRoundTrip(y + 1, x + 1, 30 + color, weight);
      assert |bytes| >= |Shade(weight)| == 3;
      bytes
    else
      []
  }

  /** Every visible pixel lands on terminal rows 1..26 and columns 1..81: the
      inclusive bounds plus the +1 offset reach one row and one column past
      an 80x25 screen, exactly for canvas row 25 and canvas column 80. */
  lemma CursorRange(x: int, y: int, color: int, weight: int)
    requires 0 <= x <= TerminalWidth && 0 <= y <= TerminalHeight
    ensures DrawPixel(x, y, color, weight) != []
    ensures DecodePixel(DrawPixel(x, y, color, weight)).Some?
    ensures var cell := DecodePixel(DrawPixel(x, y, color, weight)).value;
            && 1 <= cell.row <= TerminalHeight + 1 && 1 <= cell.col <= TerminalWidth + 1
            && (y == TerminalHeight <==> cell.row == TerminalHeight + 1)
            && (x == TerminalWidth <==> cell.col == TerminalWidth + 1)
  {
  }

  /** The iterations `i = from..2` of the loop in `draw_smooth_circle`. */
  function SmoothRings(x: int, y: int, rx: int, ry: int, color: int, from: int): (r: seq<EllipseCall>)
    requires -2 <= from <= 3
    ensures |r| == 3 - from
    ensures forall k :: 0 <= k < |r| ==>
              r[k] == EllipseCall(x, y, rx + from + k, ry + from + k, color, Abs(from + k))
    decreases 3 - from
  {
    if from == 3 then []
    else [EllipseCall(x, y, rx + from, ry + from, color, Abs(from))] + SmoothRings(x, y, rx, ry, color, from + 1)
  }

  /** `draw_smooth_circle`: five ellipses around the same centre. */
  function DrawSmoothCircle(x: int, y: int, rx: int, ry: int, color: int): (r: seq<EllipseCall>)
    ensures |r| == 5
    ensures forall k :: 0 <= k < 5 ==>
              r[k] == EllipseCall(x, y, rx + k - 2, ry + k - 2, color, Abs(k - 2))
  {
    SmoothRings(x, y, rx, ry, color, -2)
  }

  /** The radius offsets run -2..2 on both axes, the weights 2,1,0,1,2, and
      centre and colour are those given. */
  lemma SmoothCircleShape(x: int, y: int, rx: int, ry: int, color: int)
    ensures var r := DrawSmoothCircle(x, y, rx, ry, color);
            && [r[0].rx - rx, r[1].rx - rx, r[2].rx - rx, r[3].rx - rx, r[4].rx - rx] == [-2, -1, 0, 1, 2]
            && [r[0].ry - ry, r[1].ry - ry, r[2].ry - ry, r[3].ry - ry, r[4].ry - ry] == [-2, -1, 0, 1, 2]
            && [r[0].weight, r[1].weight, r[2].weight, r[3].weight, r[4].weight] == [2, 1, 0, 1, 2]
            && forall k :: 0 <= k < 5 ==> r[k].cx == x && r[k].cy == y && r[k].color == color
  {
  }

  /** The inner loop of `draw_rectangle`: rows `from..height-1` of column x. */
  function Column(x: int, y: int, height: int, color: int, from: nat): (r: seq<PixelCall>)
    ensures |r| == if from < height then height - from else 0
    ensures forall k :: 0 <= k < |r| ==> r[k] == PixelCall(x, y + from + k, color, RectangleWeight)
    decreases height - from
  {
    if from >= height then []
    else [PixelCall(x, y + from, color, RectangleWeight)] + Column(x, y, height, color, from + 1)
  }

  /** The outer loop of `draw_rectangle`: columns `from..width-1`. */
  function Columns(x: int, y: int, width: int, height: int, color: int, from: nat): (r: seq<PixelCall>)
    ensures height <= 0 || from >= width ==> r == []
    ensures height > 0 && from < width ==> |r| == (width - from) * height
    ensures height > 0 ==> forall k :: 0 <= k < |r| ==>
              r[k] == PixelCall(x + from + k / height, y + k % height, color, RectangleWeight)
    decreases width - from
  {
    if from >= width then []
    else
      var col := Column(x + from, y, height, color, 0);
      var rest := Columns(x, y, width, height, color, from + 1);
      DivModShiftAll(height);
      col + rest
  }

  /** `draw_rectangle(x, y, width, height, color)`: width*height pixel calls,
      column by column, all of weight 2; none when either side is not positive. */
  function DrawRectangle(x: int, y: int, width: int, height: int, color: int): (r: seq<PixelCall>)
    ensures width <= 0 || height <= 0 ==> r == []
    ensures width > 0 && height > 0 ==> |r| == width * height
    ensures height > 0 ==> forall k :: 0 <= k < |r| ==>
              r[k] == PixelCall(x + k / height, y + k % height, color, RectangleWeight)
  {
    Columns(x, y, width, height, color, 0)
  }

  /** The pixel calls of a rectangle hit exactly the cells of `[x, x+width) x [y, y+height)`. */
  lemma RectangleCovers(x: int, y: int, width: int, height: int, color: int, a: int, b: int)
    ensures var r := DrawRectangle(x, y, width, height, color);
            (exists k :: 0 <= k < |r| && r[k].x == a && r[k].y == b)
            <==> x <= a < x + width && y <= b < y + height
  {
    var r := DrawRectangle(x, y, width, height, color);
    if exists k :: 0 <= k < |r| && r[k].x == a && r[k].y == b {
      var k :| 0 <= k < |r| && r[k].x == a && r[k].y == b;
      RectangleCallInside(x, y, width, height, color, k);
    }
    if x <= a < x + width && y <= b < y + height {
      RectangleCellHit(x, y, width, height, color, a, b);
    }
  }

  lemma RectangleCallInside(x: int, y: int, width: int, height: int, color: int, k: int)
    requires 0 <= k < |DrawRectangle(x, y, width, height, color)|
    ensures var c := DrawRectangle(x, y, width, height, color)[k];
            x <= c.x < x + width && y <= c.y < y + height
  {
    assert height > 0 && width > 0;
    QuotientBelow(k, width, height);
  }

  lemma RectangleCellHit(x: int, y: int, width: int, height: int, color: int, a: int, b: int)
    requires x <= a < x + width && y <= b < y + height
    ensures var r := DrawRectangle(x, y, width, height, color);
            var k := (a - x) * height + (b - y);
            0 <= k < |r| && r[k].x == a && r[k].y == b
  {
    var k := (a - x) * height + (b - y);
    DivModUnique(a - x, b - y, height, k);
    assert k < width * height by {
      MulMonotone(a - x + 1, width, height);
    }
  }

  /** The worked example: `draw_rectangle(10, 10, 8, 4, 3)` makes 32 calls of colour 3
      and weight 2 covering columns 10..17 and rows 10..13. */
  lemma RectangleExample()
    ensures var r := DrawRectangle(10, 10, 8, 4, 3);
            && |r| == 32
            && forall k :: 0 <= k < 32 ==>
                 r[k].color == 3 && r[k].weight == 2 && 10 <= r[k].x <= 17 && 10 <= r[k].y <= 13
  {
  }
}

=== FILE: variants.dfy ===
/** How the two variants' pixel writes relate.

    Both accept the same upper bounds, but other.c also accepts column and
    row 0 and shifts every pixel one cell down and right on the terminal.
 */
module Variants {
  import opened Ansi
  import OtherRender
  import MainRender

  /** A pixel main.c draws is drawn by other.c too; other.c draws more exactly
      on canvas column 0 and row 0. */
  lemma ClipDifference(x: int, y: int, color: int, weight: int)
    ensures MainRender.DrawPixel(x, y, color, weight) != [] ==> OtherRender.DrawPixel(x, y, color, weight) != []
    ensures OtherRender.DrawPixel(x, y, color, weight) != [] && MainRender.DrawPixel(x, y, color, weight) == []
            <==> (x == 0 && 0 <= y <= 25) || (y == 0 && 0 <= x <= 80)
  {
  }

  /** Where both draw, other.c's glyph lands one row below and one column to
      the right of main.c's, with the same colour code and shade. */
  lemma CellOffset(x: int, y: int, color: int, weight: int)
    requires 1 <= x <= 80 && 1 <= y <= 25
    ensures var o := DecodePixel(OtherRender.DrawPixel(x, y, color, weight)).value;
            var m := DecodePixel(MainRender.DrawPixel(x, y, color, weight)).value;
            && MainRender.DrawPixel(x, y, color, weight) != []
            && o == m.(row := m.row + 1, col := m.col + 1)
  {
  }
}
